=== FILE: README.md ===
# Battle RPG battle rules in Dafny

This project models the battle-rule engine of the browser game "Epic Battle
RPG": the `BattleRPG` class in `script.js`. A hero fights one enemy at a time.
On the hero's turn they attack, cast a skill, use an item or guard. The enemy
then answers with a plain attack or a special attack. A won battle pays gold
and experience, and the experience loop may grant several levels at once.
The next battle brings an enemy scaled to the new level.

The model is functional. The game's four mutable records (`gameState`,
`player`, `enemy`, `items`) and the two turn flags (`isPlayerTurn`,
`isBattleActive`) are immutable datatypes collected in `Records.Game`. Every
method of the class that changes game state is a pure function from one
`Game` to the next.

Every `Math.random()` the rules consult is an explicit input, a `Rolls.Draw`.
A draw is the sampled value written as an exact fraction `num / den` with
`num < den`, so it lies in [0, 1) like `Math.random()`. Each level-up takes
four draws, gathered in a `Progression.Grant`. The float factors of the
source are fixed rationals (0.8, 0.4, 0.5, 1.2, 1.5, 0.2, 1.8, 2.2, 3.0), so
the functions compute on integers. Where the integer form replaces a float
expression, the contract states the source's expression over exact reals,
with `.Floor` for `Math.floor`, and proves that the two agree. The key lemma is
`Rolls.FloorOfQuotient`.

Modules:

- `Rolls`: random draws, `Math.random() < p` and `Math.floor(lo + Math.random() * w)`.
- `Records`: records, enemy templates, the skill and item catalogs, and the starting values.
- `Damage`: `calculateDamage`, critical hits, skill power, healing, guard halving, and HP/MP clamping.
- `Progression`: `levelUp`, the experience loop of `victory`, and the combo bonus.
- `Actions`: the turn gate, the four player actions, `nextTurn`, `gameOver` and the enemy's turn.
- `Setup`: `spawnNewEnemy`, `nextBattle`, `restart`, and the constructor's first game.
- `Invariants`: the whole-game invariant, which holds for a new game and is kept by every step.

## Model

| member | source | states |
|---|---|---|
| `Damage.CalculateDamage` | script.js:300-304 | The result is `max(1, floor((attack - defense) * (0.8 + 0.4 r)))` for the sampled `r` in [0, 1). It is always at least 1, exactly 1 when attack does not exceed defense, and otherwise at least `floor(0.8 * gap)` and below `1.2 * gap`. |
| `Damage.CriticalAttack` | script.js:114 | A basic attack is critical exactly when the roll is below `0.15 + 0.05 * combo`. From combo 17 on, every attack is critical. |
| `Damage.AttackHit` | script.js:115 | A critical basic attack deals `floor(2 * damage)` and a normal one deals `damage`. The result is never less than the uncritical damage. |
| `Damage.CriticalSkill` | script.js:164 | A damaging skill is critical exactly when the roll is below 0.3. |
| `Damage.SkillHit` | script.js:165 | A critical skill deals `floor(1.5 * damage)` and a normal one deals `damage`. The result is never less than the uncritical damage. |
| `Damage.SkillPower` | script.js:162 | A damaging skill attacks with power `floor(attack * power)`. |
| `Damage.HealAmount` | script.js:156 | The heal skill restores `floor(maxHp * power * 0.5)`. |
| `Damage.SpecialPower` | script.js:271 | The special attack uses power `floor(attack * 1.5)`, which is never below the plain attack's power. |
| `Damage.Halve` | script.js:253 | A guarded hit becomes `floor(damage * 0.5)`. It lies between 0 and the original damage, so a 1-point hit is fully absorbed. |
| `Damage.Lower` | script.js:126 | `max(0, hp - damage)` is never negative. It is 0 exactly when the damage reaches the HP, and otherwise it is HP minus damage. |
| `Damage.Raise` | script.js:157 | `min(cap, value + amount)` never exceeds the cap. It reaches the cap exactly when value plus amount does, and a non-negative amount never lowers a value that is within the cap. |
| `Rolls.Below` | script.js:114 | The integer test on a draw agrees with the real comparison `Math.random() < p / q`. |
| `Rolls.Spread` | script.js:337-340 | `floor(lo + Math.random() * width)` lies in `lo .. lo + width - 1` and equals the real formula. |
| `Rolls.SpreadOnto` | script.js:337-340 | Every value in `lo .. lo + width - 1` is produced by some draw. |
| `Actions.NextTurn` | script.js:410-416 | Handing the turn to the enemy clears `isPlayerTurn` and changes nothing else. |
| `Actions.CanPlayerAct` | script.js:394-396 | The gate every player action checks first: the battle is active and it is the player's turn. `Actions.GateRejects` shows that each action is a no-op exactly when the gate, or its own resource check, refuses it. |
| `Actions.GameOver` | script.js:353-357 | A defeat ends the battle and changes nothing else. |
| `Actions.Settle` | script.js:136-140 | When the enemy is down, the game is paid out as a victory: the battle is over with `isPlayerTurn` left as it was, one more battle is counted, the score and level follow the experience loop, and enemy, items and combo counters are kept. When the enemy survives, only `isPlayerTurn` changes, to false. |
| `Actions.AddCombo` | script.js:117-120 | The combo rises by the given amount, and `maxCombo` becomes the larger of its old value and the new combo. |
| `Actions.PlayerAttack` | script.js:110-141 | Out of turn, nothing changes. In turn, the enemy loses at least 1 HP but never drops below 0, and its other statistics are kept. Without a level-up the hero is exactly the old hero with the combo raised by 1 and `maxCombo` kept at least as high. Items are untouched. The battle stays active exactly when the enemy survives; then the enemy moves next and the counters are unchanged. Otherwise the victory payout applies: one more battle, gold plus any positive combo bonus on the score, and the experience loop run to completion. |
| `Actions.AttackDealt` | script.js:113-126 | An accepted attack takes `min(hp, 2d)` HP on a critical roll and `min(hp, d)` otherwise, where `d` is `calculateDamage(attack, defense)`. |
| `Actions.UseSkill` | script.js:143-189 | Out of turn, or with MP below the skill's cost, nothing changes. Otherwise, without a level-up, MP drops by exactly the cost and only HP, MP and the combo counters of the hero can differ. The enemy keeps every statistic but HP, and items are untouched. If the battle goes on, the counters are unchanged and the enemy moves next; if it ends, the victory payout applies. |
| `Actions.SkillApplied` | script.js:152-180 | A paid skill spends exactly its cost in MP. The heal touches only the hero's HP, leaving the enemy and the combo alone. A damaging skill leaves the hero exactly as after paying the cost and raising the combo by 2, with `maxCombo` as the high-water mark. Nothing of the game outside the hero's HP, MP and combo counters and the enemy's HP changes. |
| `Actions.HealSkill` | script.js:155-160 | The heal skill sets HP to `min(maxHp, hp + floor(maxHp * 0.8 * 0.5))`. It deals no damage, leaves the combo alone and passes the turn. |
| `Actions.DamagingSkill` | script.js:161-176 | Fire, thunder and critical deal `calculateDamage(floor(attack * power), defense)`, times 1.5 floored on a critical roll. Enemy HP stays at 0 or above. The combo rises by 2, and `maxCombo` becomes `max(maxCombo, combo + 2)`. The hero's HP is untouched unless a level-up refills it. The battle ends exactly when the enemy's HP reaches 0. |
| `Actions.UseItem` | script.js:191-228 | Out of turn, or with a count of 0 or less, nothing changes. Otherwise that item's count drops by exactly 1 and every other count is kept. Without a level-up only the hero's HP and MP can differ, and the combo counters are always kept. The enemy keeps every statistic but HP. If the battle goes on, the counters are unchanged and the enemy moves next; if it ends, the victory payout applies. |
| `Actions.ItemApplied` | script.js:203-219 | The potion changes only the hero's HP, the mana potion only the hero's MP, and the bomb only the enemy's HP. Counters, items, turn flags and every other statistic are kept. |
| `Actions.ItemEffects` | script.js:203-219 | The potion sets HP to `min(maxHp, hp + 30)` and keeps MP. The mana potion sets MP to `min(maxMp, mp + 20)` and keeps HP. Neither touches the enemy. The bomb deals `calculateDamage(50, defense)`, keeps enemy HP at 0 or above, and leaves the hero's gauges alone unless it wins a level-up. |
| `Actions.PlayerGuard` | script.js:230-241 | Out of turn, nothing changes. In turn, the guard goes up, MP becomes `min(maxMp, mp + 5)`, and the turn passes to the enemy. Every other field of the hero, the enemy, the items and the counters stay unchanged. |
| `Actions.PlainAttack` | script.js:247 | The enemy chooses its plain attack exactly when the roll is below 0.8, and its special attack otherwise. |
| `Actions.EnemyHit` | script.js:249-272 | The enemy's damage before clamping is never negative. It is at least 1 unless a guard halves a plain attack. |
| `Actions.EnemyTurn` | script.js:243-298 | With the battle over, nothing changes. Otherwise player HP stays at 0 or above and never rises, and the guard drops. Either the player is defeated, which happens exactly when HP is 0 and leaves `isPlayerTurn` as it was, or the turn returns to the player. The hero changes only in HP, combo and guard; counters, enemy and items are kept. |
| `Actions.EnemyTurnCombo` | script.js:249-285 | A guarded plain attack deals `floor(d * 0.5)` and keeps the combo. An unguarded plain attack deals `d` and resets the combo to 0. A special attack deals `calculateDamage(floor(attack * 1.5), defense)` and resets the combo even when guarding. |
| `Actions.GateRejects` | script.js:394-396 | Each player action leaves the game unchanged if and only if it was rejected. The attack and the guard are rejected only out of turn, a skill also when MP is too low, and an item also when its count is 0 or less. |
| `Actions.GuardRound` | script.js:230-297 | After a guard and the enemy's reply, the guard is down. Either the player may act again, or the battle is lost with HP at 0. A plain attack against the guard keeps the combo. |
| `Progression.LevelUp` | script.js:335-351 | One level is gained. Max HP rises by 20..29, max MP by 10..14, attack by 3..5 and defense by 2..3, and HP and MP are refilled to the new maximums. |
| `Progression.LevelUpOnto` | script.js:337-340 | Every combination of gains in those ranges comes from some grant of draws. |
| `Progression.NextThreshold` | script.js:317 | The threshold becomes `floor(expToNext * 1.2)`. It never decreases from 1 upward, and it strictly grows from 5 upward. |
| `Progression.Climb` | script.js:314-320 | When the loop stops, `exp < expToNext`. The threshold is the starting one grown by `floor(t * 1.2)` once per pass, so it is never below its starting value. Both the shared level and the hero's level have risen by exactly the number of passes. |
| `Progression.ClimbCarry` | script.js:314-320 | The leftover experience is the gained experience minus every threshold the passes consumed. From non-negative experience it lies in `[0, exp]`. |
| `Progression.ClimbHero` | script.js:313-320 | The loop runs at least once exactly when the experience reaches the threshold. After `n` passes, max HP has grown by 20n..29n, max MP by 10n..14n, attack by 3n..5n and defense by 2n..3n. After any level-up HP and MP are full, and with none the hero is unchanged. |
| `Progression.ComboBonus` | script.js:322 | The bonus is `floor(gold * 0.2)` when `maxCombo > 5` and 0 otherwise. For non-negative gold it lies in `[0, gold]`. |
| `Progression.PaidBonus` | script.js:322-325 | The amount the bonus adds to the score is never negative. It is positive exactly when `maxCombo > 5` and the gold is at least 5, and for non-negative gold it equals the bonus. |
| `Progression.Victory` | script.js:306-325 | The battle ends. Score grows by the enemy's gold plus the combo bonus when that bonus is positive, and `battleCount` grows by 1. The leftover experience is the gained experience minus every threshold consumed, and `exp < expToNext`. The threshold has grown by the factor 1.2, floored, once per loop pass, and the game level and hero level have each risen by the number of passes. Each level-up grants max HP 20..29, max MP 10..14, attack 3..5 and defense 2..3, and after any level-up HP and MP are full. Enemy, items and combo counters are kept. |
| `Progression.VictoryLevelsUp` | script.js:313-319 | The result screen's level-up flag is set exactly when the accumulated experience reaches the threshold. |
| `Setup.SpeciesFor` | script.js:88 | The template index is the enemy's two-level band `floor(level / 2)`, capped at the last template. |
| `Setup.Scale` | script.js:89-99 | A template statistic becomes `floor(stat * (1 + (level - 1) * 0.2))`. It is never below the template value from level 1 upward. |
| `Setup.ScaledEnemy` | script.js:91-100 | The spawned enemy carries its template's statistics scaled to the level, and starts at full, positive HP. |
| `Setup.SpawnNewEnemy` | script.js:87-108 | The species is the level's band, capped. Every statistic is the scaled template value and `hp = maxHp > 0`. The battle is active on the player's turn, with the guard down and combo 0. Counters, items and the rest of the hero, including `maxCombo`, are kept. |
| `Setup.SpawnMonotone` | script.js:87-99 | A higher level never meets a weaker enemy. The species `spawnNewEnemy` picks and every statistic it scales are monotone in the level, because the template table (script.js:27-33) grows in every column. |
| `Setup.Regrow` | script.js:366-368 | With a roll below 0.3 the count becomes `min(count + 1, 5)`, and otherwise it is kept. It never rises by more than 1, and never rises above 5. |
| `Setup.NextBattle` | script.js:359-372 | A newly spawned enemy. Each item has its own draw: below 0.3 its count becomes `min(count + 1, 5)`, and otherwise it is kept. So every count either rises by at most 1, stays the same, or is cut back to 5, and no count rises above 5. |
| `Setup.NewGame` | script.js:3-61 | The constructor's game has the starting counters, hero and items, a level-1 slime (60 HP, attack 15, defense 5, 25 exp, 50 gold), and an active battle on the player's turn. |
| `Setup.Restart` | script.js:374-391 | A restart restores the starting counters, hero and items. |
| `Setup.RestartIsNewGame` | script.js:374-391 | Nothing of the old game survives a restart: the result is the constructor's game. |
| `Invariants.NewGameInv` | script.js:3-61 | A new game satisfies the invariant. HP and MP lie in [0, max], `0 <= exp < expToNext` with a threshold of at least 100, and `combo <= maxCombo`. The hero's level matches the game level, a live enemy exists while the battle runs, the guard is up only during the enemy's turn, and item counts lie in [0, 5]. |
| `Invariants.VictoryKeepsInv` | script.js:306-351 | A victory keeps the invariant. |
| `Invariants.PlayerAttackKeepsInv` | script.js:110-141 | An attack keeps the invariant. |
| `Invariants.UseSkillKeepsInv` | script.js:143-189 | A skill keeps the invariant. |
| `Invariants.UseItemKeepsInv` | script.js:191-228 | An item keeps the invariant. |
| `Invariants.PlayerGuardKeepsInv` | script.js:230-241 | A guard keeps the invariant. |
| `Invariants.EnemyTurnKeepsInv` | script.js:243-298 | The enemy's turn keeps the invariant. |
| `Invariants.NextBattleKeepsInv` | script.js:359-372 | Starting the next battle keeps the invariant. |
| `Invariants.RestartKeepsInv` | script.js:374-391 | A restart keeps the invariant. |

## Notes on the model

- **Draw supply.** Victory runs inside the damaging actions, so `PlayerAttack`, `UseSkill` and `UseItem` take a sequence of level-up grants. They require enough grants for the most levels the fight could bring (`Progression.Supplied`). The game draws from an unbounded generator, so this excludes no play.
- **Positive threshold.** `Progression.Victory` requires `expToNext >= 1`. With a threshold of 0, the source's `while` loop never ends. Reachable games keep the threshold at 100 or more (`Invariants.Inv`).
- **Non-negative level.** `Setup.SpawnNewEnemy` requires `level >= 0`. A negative level would index `enemyTemplates[-1]`, which is `undefined` in the source and makes the spawn throw.
- **Enemy turn as one step.** `nextTurn` starts an 800 ms timer, then `enemyTurn` checks `isBattleActive` and starts a second 1500 ms timer. The model joins the check and the resolution into one `Actions.EnemyTurn` step. No other state change can happen in between, because every player action is gated by `isPlayerTurn`.
- **Facts of `script.js` the model follows.**
  - The damage variance is `Math.random() * 0.4 + 0.8`, a band of [0.8, 1.2) (script.js:302).
  - The experience threshold grows by a factor of 1.2 per level, floored (script.js:317).
  - `enemyTurn` has no dodge roll: every enemy action hits (script.js:247-286).
  - `maxCombo` is reset only by `restart` (script.js:378). `spawnNewEnemy` keeps it (script.js:104-107), so the combo bonus, once earned, applies to every later victory.
  - `victory` ends the battle but leaves `isPlayerTurn` alone (script.js:306-333).
  - The combo bonus is added only when it is positive (script.js:323-325). For the negative gold no spawned enemy has, this differs from adding it unconditionally; `Progression.PaidBonus` models the guard.

## Left out

- Presentation: `bindEvents`, `updateUI`, the skill and item panels, `showResultScreen`, `hideResultScreen`, `logMessage`, `clearLog`, `animateCharacter`, `showDamageNumber`, `showEffect`, and `enablePlayerActions`/`disablePlayerActions`. They only render state or log text. For the same reason, names, sprites and skill descriptions are not part of the records.
- Timing: the `setTimeout` delays are not modelled. The enemy's reply is the explicit step `Actions.EnemyTurn`.
- Floating-point rounding: draws are exact rationals, and the fixed factors are exact reals. Every value `Math.random()` returns is a double in [0, 1), and so a rational number that some valid draw represents. The model's draws therefore cover everything the game can sample. The one place where this changes a result is the enemy's level multiplier (script.js:89). In IEEE doubles, `1 + (19 - 1) * 0.2` is the double nearest 4.6, and `25 * 4.6` rounds to 114.99999999999999. So the game floors the level-19 defense of the strongest species to 114, while `Setup.Scale` gives the exact 115. The same rounding costs one point of attack and of defense at levels 37, 78 and 160.
- Unknown skill or item names: the source would read a property of `undefined` and throw. The model's `SkillKind` and `ItemKind` enumerations allow only the four skills and three items the buttons offer.
- Audio and effects: `sound.js`, `sound_fixed.js`, `sound_simple.js` and `effects.js` are outside the model. The `EnhancedBattleRPG` subclass in `sound.js` repeats the same rules with sound calls added.
- Tooling: `wait_for_actions.py` and the browser tests are not part of this model.
- Weapons, wounds, physical and magical sub-levels, and save/load: none of these exists in `script.js`, so none is modelled.

=== FILE: actions.dfy ===
/** The turn controller and the four player actions. A player action is
    accepted only while the battle is active and it is the player's turn;
    after it resolves, a defeated enemy ends the battle in a victory and
    otherwise the turn passes to the enemy. The enemy's delayed reply is the
    separate step `EnemyTurn`. */
module Actions {
  import opened Rolls
  import opened Records
  import opened Damage
  import opened Progression

  /** `canPlayerAct`: the gate every player action checks first. */
  predicate CanPlayerAct(g: Game) {
    g.isBattleActive && g.isPlayerTurn
  }

  /** `nextTurn`, state part: hand the turn to the enemy. The timer it arms
      is the later `EnemyTurn` step. */
  function NextTurn(g: Game): (r: Game)
    ensures !r.isPlayerTurn && r.isBattleActive == g.isBattleActive
    ensures r.state == g.state && r.player == g.player && r.enemy == g.enemy && r.items == g.items
  {
    g.(isPlayerTurn := false)
  }

  /** `gameOver`, state part: the battle ends in a defeat. */
  function GameOver(g: Game): (r: Game)
    ensures !r.isBattleActive && r.isPlayerTurn == g.isPlayerTurn
    ensures r.state == g.state && r.player == g.player && r.enemy == g.enemy && r.items == g.items
  {
    g.(isBattleActive := false)
  }

  /** The tail shared by the player actions: a downed enemy is paid out as a
      victory, otherwise the turn passes to the enemy with nothing else changed. */
  function Settle(g: Game, grants: seq<Grant>): (r: Game)
    requires Supplied(g, grants)
    ensures g.enemy.hp <= 0 && g.state.exp + g.enemy.exp >= 0 ==> PaidOut(g, r)
    ensures g.enemy.hp <= 0 ==>
      && r.enemy == g.enemy && r.items == g.items
      && r.player.combo == g.player.combo && r.player.maxCombo == g.player.maxCombo
      && (r.state.level == g.state.level ==> r.player == g.player)
    ensures g.enemy.hp > 0 ==>
      && !r.isPlayerTurn && r.isBattleActive == g.isBattleActive
      && r.state == g.state && r.player == g.player && r.enemy == g.enemy && r.items == g.items
  {
    if g.enemy.hp <= 0 then Victory(g, grants) else NextTurn(g)
  }

  /** Raise the combo by `n`, keeping `maxCombo` as its high-water mark. */
  function AddCombo(p: Player, n: nat): (q: Player)
    ensures q.combo == p.combo + n
    ensures q.maxCombo >= q.combo && q.maxCombo >= p.maxCombo
    ensures q.maxCombo == p.maxCombo || q.maxCombo == q.combo
    ensures q.(combo := p.combo, maxCombo := p.maxCombo) == p
  {
    var c := p.combo + n;
    p.(combo := c, maxCombo := if c > p.maxCombo then c else p.maxCombo)
  }

  /** `playerAttack`: damage from attack against defense, doubled on a
      critical roll (more likely with a longer combo), combo + 1. */
  function PlayerAttack(g: Game, variance: Draw, crit: Draw, grants: seq<Grant>): (r: Game)
    requires variance.Valid() && crit.Valid() && Supplied(g, grants)
    ensures !CanPlayerAct(g) ==> r == g
    ensures CanPlayerAct(g) ==>
      && r.enemy.hp >= 0
      && (g.enemy.hp > 0 ==> r.enemy.hp < g.enemy.hp)
      && r.player.combo == g.player.combo + 1
      && r.player.maxCombo >= r.player.combo
      && r.enemy == g.enemy.(hp := r.enemy.hp)
      && (r.state.level == g.state.level ==> r.player == AddCombo(g.player, 1))
      && r.items == g.items
      && (r.isBattleActive <==> r.enemy.hp > 0)
      && (r.isBattleActive ==> !r.isPlayerTurn && r.state == g.state)
      && (!r.isBattleActive && g.state.exp + g.enemy.exp >= 0 ==> PaidOut(g, r))
  {
    if !CanPlayerAct(g) then g
    else
      var damage := CalculateDamage(g.player.attack, g.enemy.defense, variance);
      var dealt := AttackHit(damage, CriticalAttack(g.player.combo, crit));
      Settle(g.(player := AddCombo(g.player, 1), enemy := g.enemy.(hp := Lower(g.enemy.hp, dealt))), grants)
  }

  /** The HP an accepted attack takes from the enemy, critical or not. */
  lemma AttackDealt(g: Game, variance: Draw, crit: Draw, grants: seq<Grant>)
    requires variance.Valid() && crit.Valid() && Supplied(g, grants)
    requires CanPlayerAct(g) && g.enemy.hp >= 0
    ensures var d := CalculateDamage(g.player.attack, g.enemy.defense, variance);
      && (CriticalAttack(g.player.combo, crit) ==>
            g.enemy.hp - PlayerAttack(g, variance, crit, grants).enemy.hp == Min(g.enemy.hp, 2 * d))
      && (!CriticalAttack(g.player.combo, crit) ==>
            g.enemy.hp - PlayerAttack(g, variance, crit, grants).enemy.hp == Min(g.enemy.hp, d))
  {
  }

  /** `useSkill`: spend MP, then either heal or deal skill damage, combo + 2.
      Too little MP rejects the skill and changes nothing. */
  function UseSkill(g: Game, k: SkillKind, variance: Draw, crit: Draw, grants: seq<Grant>): (r: Game)
    requires variance.Valid() && crit.Valid() && Supplied(g, grants)
    ensures !CanPlayerAct(g) || g.player.mp < SkillOf(k).cost ==> r == g
    ensures CanPlayerAct(g) && g.player.mp >= SkillOf(k).cost ==>
      && (r.state.level == g.state.level ==>
            && r.player.mp == g.player.mp - SkillOf(k).cost
            && r.player.(hp := g.player.hp, mp := g.player.mp, combo := g.player.combo,
                         maxCombo := g.player.maxCombo) == g.player)
      && r.enemy == g.enemy.(hp := r.enemy.hp)
      && r.items == g.items
      && (r.isBattleActive ==> !r.isPlayerTurn && r.state == g.state)
      && (!r.isBattleActive && g.state.exp + g.enemy.exp >= 0 ==> PaidOut(g, r))
  {
    if !CanPlayerAct(g) || g.player.mp < SkillOf(k).cost then g
    else Settle(SkillApplied(g, k, variance, crit), grants)
  }

  /** The effect of a paid skill before the turn settles: the MP cost is
      spent, the heal touches only the hero's HP, and a damaging skill only
      the enemy's HP and the combo. */
  function SkillApplied(g: Game, k: SkillKind, variance: Draw, crit: Draw): (h: Game)
    requires variance.Valid() && crit.Valid()
    ensures h.state == g.state && h.items == g.items
    ensures h.isBattleActive == g.isBattleActive && h.isPlayerTurn == g.isPlayerTurn
    ensures h.enemy == g.enemy.(hp := h.enemy.hp)
    ensures h.player.mp == g.player.mp - SkillOf(k).cost
    ensures k == Heal ==> h.enemy == g.enemy && h.player.combo == g.player.combo
                          && h.player.maxCombo == g.player.maxCombo
    ensures k != Heal ==> h.player == AddCombo(g.player.(mp := g.player.mp - SkillOf(k).cost), 2)
    ensures h.player.(hp := g.player.hp, mp := g.player.mp, combo := g.player.combo,
                      maxCombo := g.player.maxCombo) == g.player
  {
    var s := SkillOf(k);
    var p := g.player.(mp := g.player.mp - s.cost);
    if k == Heal then
      g.(player := p.(hp := Raise(p.hp, HealAmount(p.maxHp, s), p.maxHp)))
    else
      var damage := CalculateDamage(SkillPower(p.attack, s), g.enemy.defense, variance);
      var dealt := SkillHit(damage, CriticalSkill(crit));
      g.(player := AddCombo(p, 2), enemy := g.enemy.(hp := Lower(g.enemy.hp, dealt)))
  }

  /** The heal skill restores `floor(maxHp * 0.8 * 0.5)` HP up to the maximum
      and leaves the enemy and the combo alone. */
  lemma HealSkill(g: Game, variance: Draw, crit: Draw, grants: seq<Grant>)
    requires variance.Valid() && crit.Valid() && Supplied(g, grants)
    requires CanPlayerAct(g) && g.player.mp >= SkillOf(Heal).cost && g.enemy.hp > 0
    ensures var r := UseSkill(g, Heal, variance, crit, grants);
      && r.player.hp == Min(g.player.maxHp, g.player.hp + (g.player.maxHp as real * 0.8 * 0.5).Floor)
      && r.player.hp <= r.player.maxHp
      && r.enemy == g.enemy
      && r.player.combo == g.player.combo && r.player.maxCombo == g.player.maxCombo
      && r.isBattleActive && !r.isPlayerTurn
  {
    assert (SkillOf(Heal).powerTenths as real / 10.0) == 0.8;
  }

  /** A damaging skill deals `CalculateDamage` of attack times power, times
      1.5 floored on a critical roll, adds 2 to the combo and keeps
      `maxCombo >= combo`. */
  lemma DamagingSkill(g: Game, k: SkillKind, variance: Draw, crit: Draw, grants: seq<Grant>)
    requires variance.Valid() && crit.Valid() && Supplied(g, grants)
    requires CanPlayerAct(g) && g.player.mp >= SkillOf(k).cost && k != Heal && g.enemy.hp >= 0
    ensures var r := UseSkill(g, k, variance, crit, grants);
            var d := CalculateDamage((g.player.attack as real * (SkillOf(k).powerTenths as real / 10.0)).Floor,
                                     g.enemy.defense, variance);
      && g.enemy.hp - r.enemy.hp == Min(g.enemy.hp, if CriticalSkill(crit) then (d as real * 1.5).Floor else d)
      && r.enemy.hp >= 0
      && r.player.combo == g.player.combo + 2
      && r.player.maxCombo == Max(g.player.maxCombo, g.player.combo + 2)
      && (r.state.level == g.state.level ==> r.player.hp == g.player.hp)
      && (r.isBattleActive <==> r.enemy.hp > 0)
  {
    var s := SkillOf(k);
    var p := g.player.(mp := g.player.mp - s.cost);
    var power := SkillPower(p.attack, s);
    assert power == (g.player.attack as real * (SkillOf(k).powerTenths as real / 10.0)).Floor;
    var d := CalculateDamage(power, g.enemy.defense, variance);
    var dealt := SkillHit(d, CriticalSkill(crit));
    assert dealt == if CriticalSkill(crit) then (d as real * 1.5).Floor else d;
    var h := g.(player := AddCombo(p, 2), enemy := g.enemy.(hp := Lower(g.enemy.hp, dealt)));
    assert g.enemy.hp - h.enemy.hp == Min(g.enemy.hp, dealt) && h.player.hp == g.player.hp;
    assert h.player.maxCombo == Max(g.player.maxCombo, g.player.combo + 2);
    assert SkillApplied(g, k, variance, crit) == h;
    var r := UseSkill(g, k, variance, crit, grants);
    assert r == Settle(h, grants);
    assert r.enemy == h.enemy && r.player.combo == h.player.combo && r.player.maxCombo == h.player.maxCombo;
  }

  /** `useItem`: use one of the item and apply its effect. An empty stack
      rejects the item and changes nothing. */
  function UseItem(g: Game, k: ItemKind, variance: Draw, grants: seq<Grant>): (r: Game)
    requires variance.Valid() && Supplied(g, grants)
    ensures !CanPlayerAct(g) || Count(g.items, k) <= 0 ==> r == g
    ensures CanPlayerAct(g) && Count(g.items, k) > 0 ==>
      && Count(r.items, k) == Count(g.items, k) - 1
      && (forall j :: j != k ==> Count(r.items, j) == Count(g.items, j))
      && r.player.combo == g.player.combo && r.player.maxCombo == g.player.maxCombo
      && (r.state.level == g.state.level ==> r.player.(hp := g.player.hp, mp := g.player.mp) == g.player)
      && r.enemy == g.enemy.(hp := r.enemy.hp)
      && (r.isBattleActive ==> !r.isPlayerTurn && r.state == g.state)
      && (!r.isBattleActive && g.state.exp + g.enemy.exp >= 0 ==> PaidOut(g, r))
  {
    if !CanPlayerAct(g) || Count(g.items, k) <= 0 then g
    else Settle(ItemApplied(g.(items := WithCount(g.items, k, Count(g.items, k) - 1)), k, variance), grants)
  }

  /** The effect of an item before the turn settles: the potions touch only
      the hero's HP or MP, the bomb only the enemy's HP. */
  function ItemApplied(g: Game, k: ItemKind, variance: Draw): (h: Game)
    requires variance.Valid()
    ensures h.state == g.state && h.items == g.items
    ensures h.isBattleActive == g.isBattleActive && h.isPlayerTurn == g.isPlayerTurn
    ensures h.enemy == g.enemy.(hp := h.enemy.hp)
    ensures h.player.(hp := g.player.hp, mp := g.player.mp) == g.player
    ensures EffectOf(k) == RestoreHp ==> h.player.mp == g.player.mp && h.enemy == g.enemy
    ensures EffectOf(k) == RestoreMp ==> h.player.hp == g.player.hp && h.enemy == g.enemy
    ensures EffectOf(k) == Explode ==> h.player == g.player
  {
    var p := g.player;
    match EffectOf(k)
    case RestoreHp => g.(player := p.(hp := Raise(p.hp, PowerOf(k), p.maxHp)))
    case RestoreMp => g.(player := p.(mp := Raise(p.mp, PowerOf(k), p.maxMp)))
    case Explode =>
      var damage := CalculateDamage(PowerOf(k), g.enemy.defense, variance);
      g.(enemy := g.enemy.(hp := Lower(g.enemy.hp, damage)))
  }

  /** What each item does once accepted: the potion heals 30 HP and the mana
      potion restores 20 MP, both capped at the maximum; the bomb deals
      `CalculateDamage(50, defense)` and cannot take enemy HP below zero. */
  lemma ItemEffects(g: Game, k: ItemKind, variance: Draw, grants: seq<Grant>)
    requires variance.Valid() && Supplied(g, grants)
    requires CanPlayerAct(g) && Count(g.items, k) > 0 && g.enemy.hp > 0
    ensures var r := UseItem(g, k, variance, grants);
      && (k == Potion ==> r.player.hp == Min(g.player.maxHp, g.player.hp + 30)
                          && r.player.mp == g.player.mp && r.enemy == g.enemy)
      && (k == Mana ==> r.player.mp == Min(g.player.maxMp, g.player.mp + 20)
                        && r.player.hp == g.player.hp && r.enemy == g.enemy)
      && (k == Bomb ==>
            && g.enemy.hp - r.enemy.hp == Min(g.enemy.hp, CalculateDamage(50, g.enemy.defense, variance))
            && r.enemy.hp >= 0
            && (r.state.level == g.state.level ==> r.player.hp == g.player.hp && r.player.mp == g.player.mp))
  {
  }

  /** `playerGuard`: raise the guard, recover 5 MP up to the maximum, and end the turn. */
  function PlayerGuard(g: Game): (r: Game)
    ensures !CanPlayerAct(g) ==> r == g
    ensures CanPlayerAct(g) ==>
      && r.player.isGuarding && !r.isPlayerTurn && r.isBattleActive
      && r.player.mp == Min(g.player.maxMp, g.player.mp + 5)
      && r.player == g.player.(isGuarding := true, mp := r.player.mp)
      && r.enemy == g.enemy && r.items == g.items && r.state == g.state
  {
    if !CanPlayerAct(g) then g
    else
      var p := g.player;
      NextTurn(g.(player := p.(isGuarding := true, mp := Raise(p.mp, 5, p.maxMp))))
  }

  /** Whether the enemy picks its plain attack: `Math.random() < 0.8`. */
  function PlainAttack(choice: Draw): (b: bool)
    requires choice.Valid()
    ensures b <==> choice.Value() < 0.8
  {
    Below(choice, 4, 5)
  }

  /** The HP the enemy's action takes from the player before clamping. A plain
      attack is halved while guarding; the special attack ignores the guard. */
  function EnemyHit(g: Game, choice: Draw, variance: Draw): (d: int)
    requires choice.Valid() && variance.Valid()
    ensures d >= 0
    ensures !PlainAttack(choice) || !g.player.isGuarding ==> d >= 1
  {
    if PlainAttack(choice) then
      var damage := CalculateDamage(g.enemy.attack, g.player.defense, variance);
      if g.player.isGuarding then Halve(damage) else damage
    else CalculateDamage(SpecialPower(g.enemy.attack), g.player.defense, variance)
  }

  /** The callback of `enemyTurn`: nothing if the battle is over; otherwise
      one enemy action, the guard drops, and either the player is defeated or
      the turn returns to the player. Any hit the guard did not soften breaks
      the combo. */
  function EnemyTurn(g: Game, choice: Draw, variance: Draw): (r: Game)
    requires choice.Valid() && variance.Valid()
    ensures !g.isBattleActive ==> r == g
    ensures g.isBattleActive ==>
      && r.player.hp >= 0
      && (g.player.hp >= 0 ==> r.player.hp <= g.player.hp)
      && !r.player.isGuarding
      && (r.isBattleActive <==> r.player.hp > 0)
      && (r.isBattleActive ==> r.isPlayerTurn)
      && (!r.isBattleActive ==> r.isPlayerTurn == g.isPlayerTurn)
      && r.player == g.player.(hp := r.player.hp, combo := r.player.combo, isGuarding := false)
      && r.state == g.state && r.enemy == g.enemy && r.items == g.items
  {
    if !g.isBattleActive then g
    else
      var p := g.player;
      var keepsCombo := PlainAttack(choice) && p.isGuarding;
      var hit := EnemyHit(g, choice, variance);
      var p' := p.(hp := Lower(p.hp, hit), combo := if keepsCombo then p.combo else 0, isGuarding := false);
      if p'.hp <= 0 then GameOver(g.(player := p')) else g.(player := p', isPlayerTurn := true)
  }

  /** The guard and combo rules of the enemy turn: a guarded plain attack
      deals `floor(d / 2)` and keeps the combo; an unguarded plain attack and
      every special attack, guarded or not, reset it to 0. */
  lemma EnemyTurnCombo(g: Game, choice: Draw, variance: Draw)
    requires choice.Valid() && variance.Valid() && g.isBattleActive
    ensures var r := EnemyTurn(g, choice, variance);
      && (choice.Value() < 0.8 && g.player.isGuarding ==>
            && r.player.combo == g.player.combo
            && r.player.hp == Max(0, g.player.hp
                 - (CalculateDamage(g.enemy.attack, g.player.defense, variance) as real * 0.5).Floor))
      && (choice.Value() < 0.8 && !g.player.isGuarding ==>
            && r.player.combo == 0
            && r.player.hp == Max(0, g.player.hp - CalculateDamage(g.enemy.attack, g.player.defense, variance)))
      && (choice.Value() >= 0.8 ==>
            && r.player.combo == 0
            && r.player.hp == Max(0, g.player.hp
                 - CalculateDamage((g.enemy.attack as real * 1.5).Floor, g.player.defense, variance)))
  {
  }

  /** Out of turn, every player action is a no-op; in turn, each one changes
      the game, so "unchanged" identifies exactly the rejected actions. */
  lemma GateRejects(g: Game, k: SkillKind, i: ItemKind, variance: Draw, crit: Draw, grants: seq<Grant>)
    requires variance.Valid() && crit.Valid() && Supplied(g, grants)
    ensures PlayerAttack(g, variance, crit, grants) == g <==> !CanPlayerAct(g)
    ensures PlayerGuard(g) == g <==> !CanPlayerAct(g)
    ensures UseSkill(g, k, variance, crit, grants) == g <==> !CanPlayerAct(g) || g.player.mp < SkillOf(k).cost
    ensures UseItem(g, i, variance, grants) == g <==> !CanPlayerAct(g) || Count(g.items, i) <= 0
  {
  }

  /** One full round after a guard: the enemy's reply drops the guard and
      either returns the turn to the player or ends the battle with the
      player at 0 HP; a guarded plain attack keeps the combo. */
  lemma GuardRound(g: Game, choice: Draw, variance: Draw)
    requires choice.Valid() && variance.Valid() && CanPlayerAct(g) && g.player.hp >= 0
    ensures var r := EnemyTurn(PlayerGuard(g), choice, variance);
      && !r.player.isGuarding
      && (CanPlayerAct(r) || (!r.isBattleActive && r.player.hp == 0))
      && (choice.Value() < 0.8 ==> r.player.combo == g.player.combo)
      && r.player.mp == Min(g.player.maxMp, g.player.mp + 5)
  {
  }
}

=== FILE: damage.dfy ===
/** Damage and recovery arithmetic. Each formula is computed on integers; its
    contract restates it the way the game writes it, with the fixed float
    factors (0.8, 0.4, 0.5, 1.5, 2) read as exact reals and `Math.floor` as
    `.Floor`, and adds the bounds a caller relies on. */
module Damage {
  import opened Rolls
  import opened Records

  /** `calculateDamage`: the attack-defense gap scaled by a variance in
      [0.8, 1.2), floored, and never less than 1. */
  function CalculateDamage(attack: int, defense: int, variance: Draw): (r: int)
    requires variance.Valid()
    ensures r >= 1
    ensures r == Max(1, ((attack - defense) as real * (variance.Value() * 0.4 + 0.8)).Floor)
    ensures attack <= defense ==> r == 1
    ensures attack > defense ==> 4 * (attack - defense) / 5 <= r && 5 * r < 6 * (attack - defense)
  {
    Max(1, Varied(attack - defense, variance))
  }

  /** The gap times the variance `0.8 + 0.4 * r`, floored, with the bounds
      that variance band implies. */
  function Varied(gap: int, v: Draw): (s: int)
    requires v.Valid()
    ensures s == (gap as real * (v.Value() * 0.4 + 0.8)).Floor
    ensures gap <= 0 ==> s <= 0
    ensures gap > 0 ==> 4 * gap / 5 <= s && 5 * s < 6 * gap
  {
    var w := 2 * v.num + 4 * v.den;
    VarianceAsFraction(gap, v);
    FloorOfQuotient(gap * w, 5 * v.den);
    if gap <= 0 then
      NonPositiveQuotient(gap, v);
      gap * w / (5 * v.den)
    else
      LowerQuotient(gap, v);
      UpperQuotient(gap, v);
      gap * w / (5 * v.den)
  }

  /** The real variance factor written as one fraction. */
  lemma VarianceAsFraction(gap: int, v: Draw)
    requires v.Valid()
    ensures gap as real * (v.Value() * 0.4 + 0.8)
         == (gap * (2 * v.num + 4 * v.den)) as real / (5 * v.den) as real
  {
    var f := v.Value();
    var den := v.den as real;
    assert f * den == v.num as real;
    assert (f * 0.4 + 0.8) * (5.0 * den) == 2.0 * (f * den) + 4.0 * den;
    assert gap as real * (f * 0.4 + 0.8) * (5 * v.den) as real == (gap * (2 * v.num + 4 * v.den)) as real;
    RealQuotient(gap as real * (f * 0.4 + 0.8), (gap * (2 * v.num + 4 * v.den)) as real, (5 * v.den) as real);
  }

  lemma NonPositiveQuotient(gap: int, v: Draw)
    requires v.Valid() && gap <= 0
    ensures gap * (2 * v.num + 4 * v.den) / (5 * v.den) <= 0
  {
    var w := 2 * v.num + 4 * v.den;
    MulLeft(gap, 0, w);
    QuotientBelow(1, gap * w, 5 * v.den);
  }

  lemma UpperQuotient(gap: int, v: Draw)
    requires v.Valid() && gap > 0
    ensures 5 * (gap * (2 * v.num + 4 * v.den) / (5 * v.den)) < 6 * gap
  {
    var w := 2 * v.num + 4 * v.den;
    var s := gap * w / (5 * v.den);
    assert gap * w == s * (5 * v.den) + gap * w % (5 * v.den);
    MulLeft(w + 1, 6 * v.den, gap);
    assert (5 * s) * v.den < (6 * gap) * v.den;
    CancelRight(5 * s, 6 * gap, v.den);
  }

  lemma LowerQuotient(gap: int, v: Draw)
    requires v.Valid() && gap > 0
    ensures 4 * gap / 5 <= gap * (2 * v.num + 4 * v.den) / (5 * v.den)
  {
    var q := 4 * gap / 5;
    var w := 2 * v.num + 4 * v.den;
    assert 4 * gap == q * 5 + 4 * gap % 5;
    MulLeft(5 * q, 4 * gap, v.den);
    MulLeft(4 * v.den, w, gap);
    assert q * (5 * v.den) <= gap * w;
    QuotientAtLeast(q, gap * w, 5 * v.den);
  }

  /** A critical basic attack: `Math.random() < 0.15 + combo * 0.05`. */
  function CriticalAttack(combo: nat, roll: Draw): (b: bool)
    requires roll.Valid()
    ensures b <==> roll.Value() < 0.15 + combo as real * 0.05
    ensures combo >= 17 ==> b
  {
    assert (3 + combo) as real / 20 as real == 0.15 + combo as real * 0.05;
    Below(roll, 3 + combo, 20)
  }

  /** A critical skill: `Math.random() < 0.3`. */
  function CriticalSkill(roll: Draw): (b: bool)
    requires roll.Valid()
    ensures b <==> roll.Value() < 0.3
  {
    Below(roll, 3, 10)
  }

  /** A basic attack's final damage: doubled on a critical hit. */
  function AttackHit(damage: int, critical: bool): (r: int)
    ensures r == if critical then (damage as real * 2.0).Floor else damage
    ensures damage >= 1 ==> r >= damage
  {
    if critical then 2 * damage else damage
  }

  /** A skill's final damage: one and a half times, floored, on a critical hit. */
  function SkillHit(damage: int, critical: bool): (r: int)
    ensures r == if critical then (damage as real * 1.5).Floor else damage
    ensures damage >= 1 ==> r >= damage
  {
    if critical then
      FloorOfQuotient(3 * damage, 2);
      3 * damage / 2
    else damage
  }

  /** The power a damaging skill feeds to `CalculateDamage`: attack times power, floored. */
  function SkillPower(attack: int, s: Skill): (r: int)
    ensures r == (attack as real * (s.powerTenths as real / 10.0)).Floor
  {
    FloorOfQuotient(attack * s.powerTenths, 10);
    attack * s.powerTenths / 10
  }

  /** The heal skill's recovery: maximum HP times power times one half, floored. */
  function HealAmount(maxHp: int, s: Skill): (r: int)
    ensures r == (maxHp as real * (s.powerTenths as real / 10.0) * 0.5).Floor
  {
    FloorOfQuotient(maxHp * s.powerTenths, 20);
    maxHp * s.powerTenths / 20
  }

  /** The power of the enemy's special attack: one and a half times its attack, floored. */
  function SpecialPower(attack: int): (r: int)
    ensures r == (attack as real * 1.5).Floor
    ensures attack >= 0 ==> attack <= r
  {
    FloorOfQuotient(3 * attack, 2);
    3 * attack / 2
  }

  /** Guarding halves a plain enemy hit, floored: a 1-point hit is absorbed. */
  function Halve(damage: int): (r: int)
    ensures r == (damage as real * 0.5).Floor
    ensures damage >= 0 ==> 0 <= r <= damage
    ensures damage >= 2 ==> r >= 1
  {
    FloorOfQuotient(damage, 2);
    damage / 2
  }

  /** `Math.max(0, hp - damage)`: a damaging action never drives HP below zero. */
  function Lower(hp: int, damage: int): (r: int)
    ensures r >= 0
    ensures r == 0 <==> hp <= damage
    ensures r > 0 ==> hp - r == damage
    ensures hp >= 0 && damage >= 0 ==> r <= hp
  {
    if hp - damage < 0 then 0 else hp - damage
  }

  /** `Math.min(cap, value + amount)`: a recovery never lifts a gauge above its maximum. */
  function Raise(value: int, amount: int, cap: int): (r: int)
    ensures r <= cap
    ensures r == cap <==> value + amount >= cap
    ensures r < cap ==> r - value == amount
    ensures value <= cap && amount >= 0 ==> value <= r
  {
    if value + amount < cap then value + amount else cap
  }
}

=== FILE: invariants.dfy ===
/** The invariant every reachable game keeps: gauges within [0, max], the
    experience counter below its threshold, combo at most its high-water mark,
    a live enemy while the battle runs, the guard only up during the enemy's
    turn, and item counts within [0, 5]. A new game has it and every step
    keeps it. */
module Invariants {
  import opened Rolls
  import opened Records
  import opened Damage
  import opened Progression
  import opened Actions
  import opened Setup

  predicate ProgressOk(s: GameState) {
    && s.score >= 0 && s.battleCount >= 0 && s.level >= 1
    && 0 <= s.exp < s.expToNext && 100 <= s.expToNext
  }

  predicate HeroOk(p: Player) {
    && 0 <= p.hp <= p.maxHp
    && 0 <= p.mp <= p.maxMp
    && p.attack >= 0 && p.defense >= 0
    && p.combo <= p.maxCombo
  }

  predicate EnemyOk(e: Enemy) {
    0 <= e.hp <= e.maxHp && e.exp >= 0 && e.gold >= 0
  }

  predicate ItemsOk(i: Items) {
    forall k :: 0 <= Count(i, k) <= ItemCap
  }

  predicate Inv(g: Game) {
    && ProgressOk(g.state) && HeroOk(g.player) && EnemyOk(g.enemy) && ItemsOk(g.items)
    && g.player.level == g.state.level
    && (g.isBattleActive ==> g.enemy.hp > 0)
    && (g.player.isGuarding ==> g.isBattleActive && !g.isPlayerTurn)
  }

  lemma NewGameInv()
    ensures Inv(NewGame())
  {
  }

  lemma RestartKeepsInv(g: Game)
    ensures Inv(Restart(g))
  {
    RestartIsNewGame(g);
    NewGameInv();
  }

  /** A victory keeps the invariant: the leftover experience stays in
      [0, threshold), the threshold stays at least 100, and a level-up leaves
      the hero's gauges full. */
  lemma VictoryKeepsInv(g: Game, grants: seq<Grant>)
    requires Supplied(g, grants)
    requires ProgressOk(g.state) && HeroOk(g.player) && EnemyOk(g.enemy) && ItemsOk(g.items)
    requires g.player.level == g.state.level && !g.player.isGuarding
    ensures Inv(Victory(g, grants))
  {
    var gained := g.state.exp + g.enemy.exp;
    ClimbCarry(gained, g.state.expToNext, g.state.level, g.player, grants);
    ClimbHero(gained, g.state.expToNext, g.state.level, g.player, grants);
  }

  lemma SettleKeepsInv(g: Game, grants: seq<Grant>)
    requires Supplied(g, grants) && g.isBattleActive
    requires ProgressOk(g.state) && HeroOk(g.player) && EnemyOk(g.enemy) && ItemsOk(g.items)
    requires g.player.level == g.state.level && !g.player.isGuarding
    ensures Inv(Settle(g, grants))
  {
    if g.enemy.hp <= 0 {
      VictoryKeepsInv(g, grants);
    }
  }

  lemma PlayerAttackKeepsInv(g: Game, variance: Draw, crit: Draw, grants: seq<Grant>)
    requires variance.Valid() && crit.Valid() && Supplied(g, grants) && Inv(g)
    ensures Inv(PlayerAttack(g, variance, crit, grants))
  {
    if CanPlayerAct(g) {
      var damage := CalculateDamage(g.player.attack, g.enemy.defense, variance);
      var dealt := AttackHit(damage, CriticalAttack(g.player.combo, crit));
      SettleKeepsInv(g.(player := AddCombo(g.player, 1), enemy := g.enemy.(hp := Lower(g.enemy.hp, dealt))), grants);
    }
  }

  lemma UseSkillKeepsInv(g: Game, k: SkillKind, variance: Draw, crit: Draw, grants: seq<Grant>)
    requires variance.Valid() && crit.Valid() && Supplied(g, grants) && Inv(g)
    ensures Inv(UseSkill(g, k, variance, crit, grants))
  {
    var s := SkillOf(k);
    if CanPlayerAct(g) && g.player.mp >= s.cost {
      var p := g.player.(mp := g.player.mp - s.cost);
      if k == Heal {
        SettleKeepsInv(g.(player := p.(hp := Raise(p.hp, HealAmount(p.maxHp, s), p.maxHp))), grants);
      } else {
        var damage := CalculateDamage(SkillPower(p.attack, s), g.enemy.defense, variance);
        var dealt := SkillHit(damage, CriticalSkill(crit));
        SettleKeepsInv(g.(player := AddCombo(p, 2), enemy := g.enemy.(hp := Lower(g.enemy.hp, dealt))), grants);
      }
    }
  }

  lemma UseItemKeepsInv(g: Game, k: ItemKind, variance: Draw, grants: seq<Grant>)
    requires variance.Valid() && Supplied(g, grants) && Inv(g)
    ensures Inv(UseItem(g, k, variance, grants))
  {
    if CanPlayerAct(g) && Count(g.items, k) > 0 {
      var g' := g.(items := WithCount(g.items, k, Count(g.items, k) - 1));
      var p := g.player;
      match EffectOf(k)
      case RestoreHp =>
        SettleKeepsInv(g'.(player := p.(hp := Raise(p.hp, PowerOf(k), p.maxHp))), grants);
      case RestoreMp =>
        SettleKeepsInv(g'.(player := p.(mp := Raise(p.mp, PowerOf(k), p.maxMp))), grants);
      case Explode =>
        var damage := CalculateDamage(PowerOf(k), g.enemy.defense, variance);
        SettleKeepsInv(g'.(enemy := g.enemy.(hp := Lower(g.enemy.hp, damage))), grants);
    }
  }

  lemma PlayerGuardKeepsInv(g: Game)
    requires Inv(g)
    ensures Inv(PlayerGuard(g))
  {
  }

  lemma EnemyTurnKeepsInv(g: Game, choice: Draw, variance: Draw)
    requires choice.Valid() && variance.Valid() && Inv(g)
    ensures Inv(EnemyTurn(g, choice, variance))
  {
  }

  lemma NextBattleKeepsInv(g: Game, potion: Draw, mana: Draw, bomb: Draw)
    requires potion.Valid() && mana.Valid() && bomb.Valid() && Inv(g)
    ensures Inv(NextBattle(g, potion, mana, bomb))
  {
  }
}

=== FILE: progression.dfy ===
/** What a won battle pays out: gold and experience, the experience loop that
    may grant several levels at once, the random stat grant of each level-up,
    and the combo bonus. */
module Progression {
  import opened Rolls
  import opened Records

  /** The four samples one level-up consumes, in the order the game draws them. */
  datatype Grant = Grant(hp: Draw, mp: Draw, attack: Draw, defense: Draw) {
    predicate Valid() {
      hp.Valid() && mp.Valid() && attack.Valid() && defense.Valid()
    }
  }

  predicate AllValid(grants: seq<Grant>) {
    forall i :: 0 <= i < |grants| ==> grants[i].Valid()
  }

  /** `levelUp`: one level, random stat growth, and full HP and MP. */
  function LevelUp(p: Player, g: Grant): (q: Player)
    requires g.Valid()
    ensures q.level == p.level + 1
    ensures p.maxHp + 20 <= q.maxHp <= p.maxHp + 29
    ensures p.maxMp + 10 <= q.maxMp <= p.maxMp + 14
    ensures p.attack + 3 <= q.attack <= p.attack + 5
    ensures p.defense + 2 <= q.defense <= p.defense + 3
    ensures q.hp == q.maxHp && q.mp == q.maxMp
    ensures q.isGuarding == p.isGuarding && q.combo == p.combo && q.maxCombo == p.maxCombo
  {
    var maxHp := p.maxHp + Spread(g.hp, 20, 10);
    var maxMp := p.maxMp + Spread(g.mp, 10, 5);
    p.(level := p.level + 1,
       maxHp := maxHp, hp := maxHp,
       maxMp := maxMp, mp := maxMp,
       attack := p.attack + Spread(g.attack, 3, 3),
       defense := p.defense + Spread(g.defense, 2, 2))
  }

  /** Every growth the source can roll is reachable: any HP, MP, attack and
      defense gains in the stated ranges come from some grant. */
  lemma LevelUpOnto(p: Player, hp: int, mp: int, atk: int, def: int)
    requires 20 <= hp <= 29 && 10 <= mp <= 14 && 3 <= atk <= 5 && 2 <= def <= 3
    ensures var g := Grant(Draw(hp - 20, 10), Draw(mp - 10, 5), Draw(atk - 3, 3), Draw(def - 2, 2));
      && g.Valid()
      && LevelUp(p, g).maxHp == p.maxHp + hp
      && LevelUp(p, g).maxMp == p.maxMp + mp
      && LevelUp(p, g).attack == p.attack + atk
      && LevelUp(p, g).defense == p.defense + def
  {
    SpreadOnto(20, 10, hp);
    SpreadOnto(10, 5, mp);
    SpreadOnto(3, 3, atk);
    SpreadOnto(2, 2, def);
  }

  /** The next experience threshold: 1.2 times the current one, floored. */
  function NextThreshold(t: int): (r: int)
    ensures r == (t as real * 1.2).Floor
    ensures t >= 1 ==> t <= r
    ensures t >= 5 ==> t < r
  {
    FloorOfQuotient(t * 6, 5);
    assert t as real * 1.2 == (t * 6) as real / 5 as real;
    t * 6 / 5
  }

  /** How many times the experience loop runs for `exp` against threshold `next`. */
  function LevelsGained(exp: int, next: int): nat
    requires next >= 1
    decreases exp
  {
    if exp < next then 0 else 1 + LevelsGained(exp - next, NextThreshold(next))
  }

  /** The threshold after `n` passes of the loop: `t` grown by 1.2, floored,
      `n` times over. */
  function Threshold(t: int, n: nat): int
    decreases n
  {
    if n == 0 then t else Threshold(NextThreshold(t), n - 1)
  }

  /** The sum of `n` consecutive thresholds starting at `next`: the
      experience that `n` passes of the loop consume. */
  function Consumed(next: int, n: nat): int
    decreases n
  {
    if n == 0 then 0 else next + Consumed(NextThreshold(next), n - 1)
  }

  /** The counters and hero when the experience loop stops. */
  datatype Ladder = Ladder(exp: int, expToNext: int, level: int, player: Player)

  /** The `while (exp >= expToNext)` loop of `victory`, one pass per call:
      spend a threshold, gain a level, grow the threshold, level up the hero. */
  function Climb(exp: int, next: int, level: int, p: Player, grants: seq<Grant>): (r: Ladder)
    requires next >= 1
    requires AllValid(grants) && |grants| >= LevelsGained(exp, next)
    ensures r.exp < r.expToNext
    ensures next <= r.expToNext
    ensures r.expToNext == Threshold(next, LevelsGained(exp, next))
    ensures r.level == level + LevelsGained(exp, next)
    ensures r.player.level == p.level + LevelsGained(exp, next)
    ensures r.player.combo == p.combo && r.player.maxCombo == p.maxCombo
    ensures r.player.isGuarding == p.isGuarding
    decreases exp
  {
    if exp < next then Ladder(exp, next, level, p)
    else Climb(exp - next, NextThreshold(next), level + 1, LevelUp(p, grants[0]), grants[1..])
  }

  /** The carry-over: what is left after the loop is the gained experience
      minus every threshold it spent, and it lies in [0, exp]. */
  lemma {:induction false} ClimbCarry(exp: int, next: int, level: int, p: Player, grants: seq<Grant>)
    requires next >= 1
    requires AllValid(grants) && |grants| >= LevelsGained(exp, next)
    ensures Climb(exp, next, level, p, grants).exp == exp - Consumed(next, LevelsGained(exp, next))
    ensures exp >= 0 ==> 0 <= Climb(exp, next, level, p, grants).exp <= exp
    decreases exp
  {
    if exp >= next {
      ClimbCarry(exp - next, NextThreshold(next), level + 1, LevelUp(p, grants[0]), grants[1..]);
    }
  }

  /** The loop levels up at least once exactly when the gained experience
      reaches the threshold; after a level-up the hero is at full HP and MP and
      each stat has grown by between the smallest and the largest grant per level. */
  lemma {:induction false} ClimbHero(exp: int, next: int, level: int, p: Player, grants: seq<Grant>)
    requires next >= 1
    requires AllValid(grants) && |grants| >= LevelsGained(exp, next)
    ensures LevelsGained(exp, next) > 0 <==> exp >= next
    ensures var n := LevelsGained(exp, next);
            var q := Climb(exp, next, level, p, grants).player;
      && Grown(p, q, n)
      && (n == 0 ==> q == p)
    decreases exp
  {
    if exp >= next {
      ClimbHero(exp - next, NextThreshold(next), level + 1, LevelUp(p, grants[0]), grants[1..]);
    }
  }

  /** The extra gold for a long combo: a fifth of the enemy's gold, floored,
      when the best combo exceeds 5. */
  function ComboBonus(maxCombo: nat, gold: int): (b: int)
    ensures b == if maxCombo > 5 then (gold as real * 0.2).Floor else 0
    ensures gold >= 0 ==> 0 <= b <= gold
  {
    if maxCombo > 5 then
      FloorOfQuotient(gold, 5);
      gold / 5
    else 0
  }

  /** The part of the combo bonus a victory adds to the score: the bonus
      only when it is positive. */
  function PaidBonus(maxCombo: nat, gold: int): (b: int)
    ensures b >= 0
    ensures b > 0 <==> maxCombo > 5 && gold >= 5
    ensures gold >= 0 ==> b == ComboBonus(maxCombo, gold)
  {
    var bonus := ComboBonus(maxCombo, gold);
    if bonus > 0 then bonus else 0
  }

  /** `r` is `g` after the payout of a victory: the battle over, one more
      battle counted, gold and any positive combo bonus added to the score,
      and the experience loop run to completion. */
  predicate PaidOut(g: Game, r: Game)
    requires g.state.expToNext >= 1
  {
    && !r.isBattleActive && r.isPlayerTurn == g.isPlayerTurn
    && r.state.battleCount == g.state.battleCount + 1
    && r.state.score == g.state.score + g.enemy.gold + PaidBonus(r.player.maxCombo, g.enemy.gold)
    && 0 <= r.state.exp < r.state.expToNext
    && g.state.expToNext <= r.state.expToNext
    && r.state.expToNext == Threshold(g.state.expToNext, LevelsGained(g.state.exp + g.enemy.exp, g.state.expToNext))
    && Grown(g.player, r.player, LevelsGained(g.state.exp + g.enemy.exp, g.state.expToNext))
    && r.state.level - g.state.level == LevelsGained(g.state.exp + g.enemy.exp, g.state.expToNext)
  }

  /** `q` is hero `p` after `n` level-ups: each statistic grown by `n` times
      its grant range, and after at least one level-up HP and MP full. */
  predicate Grown(p: Player, q: Player, n: nat) {
    && p.maxHp + 20 * n <= q.maxHp <= p.maxHp + 29 * n
    && p.maxMp + 10 * n <= q.maxMp <= p.maxMp + 14 * n
    && p.attack + 3 * n <= q.attack <= p.attack + 5 * n
    && p.defense + 2 * n <= q.defense <= p.defense + 3 * n
    && (n > 0 ==> q.hp == q.maxHp && q.mp == q.maxMp)
  }

  /** Enough level-up samples for the experience a victory over `g.enemy` brings. */
  predicate Supplied(g: Game, grants: seq<Grant>) {
    && g.state.expToNext >= 1
    && AllValid(grants)
    && |grants| >= LevelsGained(g.state.exp + g.enemy.exp, g.state.expToNext)
  }

  /** `victory`: end the battle, pay gold and experience, run the level loop,
      then add the combo bonus. */
  function Victory(g: Game, grants: seq<Grant>): (r: Game)
    requires Supplied(g, grants)
    ensures !r.isBattleActive && r.isPlayerTurn == g.isPlayerTurn
    ensures r.state.battleCount == g.state.battleCount + 1
    ensures r.state.score == g.state.score + g.enemy.gold + PaidBonus(g.player.maxCombo, g.enemy.gold)
    ensures r.state.exp < r.state.expToNext
    ensures r.state.exp == g.state.exp + g.enemy.exp
                         - Consumed(g.state.expToNext, LevelsGained(g.state.exp + g.enemy.exp, g.state.expToNext))
    ensures g.state.exp + g.enemy.exp >= 0 ==> PaidOut(g, r)
    ensures g.state.expToNext <= r.state.expToNext
    ensures r.state.expToNext == Threshold(g.state.expToNext, LevelsGained(g.state.exp + g.enemy.exp, g.state.expToNext))
    ensures Grown(g.player, r.player, LevelsGained(g.state.exp + g.enemy.exp, g.state.expToNext))
    ensures r.state.level - g.state.level == r.player.level - g.player.level
                                         == LevelsGained(g.state.exp + g.enemy.exp, g.state.expToNext)
    ensures r.enemy == g.enemy && r.items == g.items
    ensures r.player.combo == g.player.combo && r.player.maxCombo == g.player.maxCombo
    ensures r.player.isGuarding == g.player.isGuarding
    ensures r.state.level == g.state.level ==> r.player == g.player
  {
    var gained := g.state.exp + g.enemy.exp;
    var top := Climb(gained, g.state.expToNext, g.state.level, g.player, grants);
    var bonus := PaidBonus(g.player.maxCombo, g.enemy.gold);
    ClimbHero(gained, g.state.expToNext, g.state.level, g.player, grants);
    ClimbCarry(gained, g.state.expToNext, g.state.level, g.player, grants);
    g.(isBattleActive := false,
       state := GameState(g.state.score + g.enemy.gold + bonus, top.level, top.exp, top.expToNext,
                          g.state.battleCount + 1),
       player := top.player)
  }

  /** Whether the result screen reports a level-up. */
  lemma VictoryLevelsUp(g: Game, grants: seq<Grant>)
    requires Supplied(g, grants)
    ensures Victory(g, grants).state.level > g.state.level <==> g.state.exp + g.enemy.exp >= g.state.expToNext
  {
    ClimbHero(g.state.exp + g.enemy.exp, g.state.expToNext, g.state.level, g.player, grants);
  }
}

=== FILE: records.dfy ===
/** The plain records the battle rules work on, and the game's fixed catalogs:
    enemy templates, skills, items and the starting values that a new game
    and a restart both use. Names, sprites and descriptions are display text
    and are not modelled. */
module Records {

  /** Progression counters shared by the whole run. */
  datatype GameState = GameState(score: int, level: int, exp: int, expToNext: int, battleCount: int)

  /** The hero. `combo` counts hits since the last broken combo and
      `maxCombo` is its high-water mark. */
  datatype Player = Player(
    maxHp: int, hp: int, maxMp: int, mp: int,
    attack: int, defense: int, level: int,
    isGuarding: bool, combo: nat, maxCombo: nat)

  /** The current opponent; `species` is the index of its template. */
  datatype Enemy = Enemy(species: nat, maxHp: int, hp: int, attack: int, defense: int, exp: int, gold: int)

  /** How many of each consumable the hero carries. */
  datatype Items = Items(potion: int, mana: int, bomb: int)

  /** Everything the battle rules read and write, including the two turn flags. */
  datatype Game = Game(
    state: GameState, player: Player, enemy: Enemy, items: Items,
    isPlayerTurn: bool, isBattleActive: bool)

  /** Base statistics of an enemy species before level scaling. */
  datatype Template = Template(hp: nat, attack: nat, defense: nat, exp: nat, gold: nat)

  /** Slime, goblin, orc, dragon and demon, weakest first. */
  const Templates: seq<Template> := [
    Template(60, 15, 5, 25, 50),
    Template(80, 22, 8, 35, 75),
    Template(120, 28, 12, 50, 100),
    Template(200, 45, 20, 100, 200),
    Template(300, 60, 25, 150, 300)
  ]

  datatype SkillKind = Fire | Heal | Thunder | Critical

  /** MP cost, and power as a multiple of one tenth (1.8 is 18). */
  datatype Skill = Skill(cost: nat, powerTenths: nat)

  function SkillOf(k: SkillKind): Skill {
    match k
    case Fire => Skill(10, 18)
    case Heal => Skill(15, 8)
    case Thunder => Skill(20, 22)
    case Critical => Skill(25, 30)
  }

  datatype ItemKind = Potion | Mana | Bomb

  datatype ItemEffect = RestoreHp | RestoreMp | Explode

  function EffectOf(k: ItemKind): ItemEffect {
    match k
    case Potion => RestoreHp
    case Mana => RestoreMp
    case Bomb => Explode
  }

  function PowerOf(k: ItemKind): nat {
    match k
    case Potion => 30
    case Mana => 20
    case Bomb => 50
  }

  function Count(items: Items, k: ItemKind): int {
    match k
    case Potion => items.potion
    case Mana => items.mana
    case Bomb => items.bomb
  }

  /** The carried items with the count of `k` replaced by `n`. */
  function WithCount(items: Items, k: ItemKind, n: int): (r: Items)
    ensures Count(r, k) == n
    ensures forall j :: j != k ==> Count(r, j) == Count(items, j)
  {
    match k
    case Potion => items.(potion := n)
    case Mana => items.(mana := n)
    case Bomb => items.(bomb := n)
  }

  /** The counters, hero and items of a fresh game; a restart reinstates them. */
  const StartState := GameState(0, 1, 0, 100, 0)
  const StartPlayer := Player(100, 100, 50, 50, 20, 10, 1, false, 0, 0)
  const StartItems := Items(3, 2, 1)

  /** The most of one item that regrowth between battles can bring. */
  const ItemCap := 5
}

=== FILE: rolls.dfy ===
/** Random draws and the exact arithmetic that replaces the game's float factors.

    Every `Math.random()` that a battle rule consults is an explicit input here:
    a `Draw` is the sampled value written as an exact fraction `num / den`,
    which lies in [0, 1) exactly like `Math.random()`. The lemmas in this module
    connect integer division with `.Floor` of a real quotient, so that the
    other modules can state their integer formulas in the source's own
    real-number terms. */
module Rolls {

  /** One sample of `Math.random()`, the fraction `num / den`. */
  datatype Draw = Draw(num: nat, den: nat) {

    /** The fraction lies in [0, 1), the range of `Math.random()`. */
    predicate Valid() {
      num < den
    }

    /** The sampled value as a real number. */
    ghost function Value(): (v: real)
      requires Valid()
      ensures 0.0 <= v < 1.0
    {
      num as real / den as real
    }
  }

  function Max(a: int, b: int): int {
    if a < b then b else a
  }

  function Min(a: int, b: int): int {
    if a < b then a else b
  }

  /** Integer division by a positive divisor is the floor of the real quotient. */
  lemma FloorOfQuotient(n: int, m: int)
    requires m > 0
    ensures (n as real / m as real).Floor == n / m
  {
    var q := n / m;
    var r := n % m;
    assert n == q * m + r;
    assert n as real == q as real * m as real + r as real;
    assert n as real / m as real == q as real + r as real / m as real;
    assert 0.0 <= r as real / m as real < 1.0;
  }

  /** Multiplying by a non-negative factor keeps an inequality. */
  lemma MulLeft(a: int, b: int, c: int)
    requires a <= b && c >= 0
    ensures a * c <= b * c
  {
    assert b * c - a * c == (b - a) * c;
  }

  /** A multiple of the divisor that fits in `n` bounds `n / m` from below. */
  lemma QuotientAtLeast(q: int, n: int, m: int)
    requires m > 0 && q * m <= n
    ensures q <= n / m
  {
    var s := n / m;
    assert n == s * m + n % m;
    if q > s {
      MulLeft(s + 1, q, m);
      assert false;
    }
  }

  /** `n` below `w` multiples of the divisor bounds `n / m` from above. */
  lemma QuotientBelow(w: int, n: int, m: int)
    requires m > 0 && n < w * m
    ensures n / m < w
  {
    var s := n / m;
    assert n == s * m + n % m;
    if s >= w {
      MulLeft(w, s, m);
      assert false;
    }
  }

  /** Cancelling a positive factor from a strict inequality. */
  lemma CancelRight(a: int, b: int, c: int)
    requires c > 0 && a * c < b * c
    ensures a < b
  {
    if a >= b {
      MulLeft(b, a, c);
      assert false;
    }
  }

  /** The quotient is determined by any decomposition with a remainder in [0, m). */
  lemma DivUnique(n: int, m: int, q: int, r: int)
    requires m > 0 && 0 <= r < m && n == q * m + r
    ensures n / m == q
  {
    QuotientAtLeast(q, n, m);
    QuotientBelow(q + 1, n, m);
  }

  /** Adding a whole multiple of the divisor shifts the quotient by that multiple. */
  lemma DivShift(a: int, x: int, m: int)
    requires m > 0
    ensures (a * m + x) / m == a + x / m
  {
    var q := x / m;
    assert x == q * m + x % m;
    assert a * m + x == (a + q) * m + x % m;
    DivUnique(a * m + x, m, a + q, x % m);
  }

  /** Dividing out a positive real factor. */
  lemma RealQuotient(y: real, z: real, d: real)
    requires d > 0.0 && y * d == z
    ensures y == z / d
  {
  }

  /** Comparing two fractions by cross-multiplying positive denominators. */
  lemma CrossMultiply(n: int, d: int, p: int, q: int)
    requires d > 0 && q > 0
    ensures n as real / d as real < p as real / q as real <==> n * q < p * d
  {
    var lhs := n as real / d as real;
    var rhs := p as real / q as real;
    assert lhs * (d * q) as real == (n * q) as real;
    assert rhs * (d * q) as real == (p * d) as real;
    assert (d * q) as real > 0.0;
  }

  /** `Math.random() < p / q`: the fraction comparison decided on integers. */
  function Below(d: Draw, p: int, q: nat): (b: bool)
    requires d.Valid() && q > 0
    ensures b <==> d.Value() < p as real / q as real
  {
    CrossMultiply(d.num, d.den, p, q);
    d.num * q < p * d.den
  }

  /** `Math.floor(lo + Math.random() * width)`: a whole number drawn from
      `lo .. lo + width - 1`. */
  function Spread(d: Draw, lo: int, width: nat): (r: int)
    requires d.Valid() && width > 0
    ensures lo <= r < lo + width
    ensures r == (lo as real + d.Value() * width as real).Floor
  {
    var x := width * d.num;
    MulLeft(d.num, d.den, width);
    QuotientBelow(width, x, d.den);
    QuotientAtLeast(0, x, d.den);
    SpreadAsFraction(d, lo, width);
    FloorOfQuotient(lo * d.den + x, d.den);
    DivShift(lo, x, d.den);
    lo + x / d.den
  }

  /** `lo + r * width` for the draw `r`, written as one fraction. */
  lemma SpreadAsFraction(d: Draw, lo: int, width: nat)
    requires d.Valid()
    ensures lo as real + d.Value() * width as real == (lo * d.den + width * d.num) as real / d.den as real
  {
    var f := d.Value();
    var den := d.den as real;
    assert f * den == d.num as real;
    assert (lo as real + f * width as real) * den == lo as real * den + (f * den) * width as real;
    RealQuotient(lo as real + f * width as real, (lo * d.den + width * d.num) as real, den);
  }

  /** Every value of a `Spread` range is drawn by some sample. */
  lemma SpreadOnto(lo: int, width: nat, v: int)
    requires width > 0 && lo <= v < lo + width
    ensures Draw(v - lo, width).Valid() && Spread(Draw(v - lo, width), lo, width) == v
  {
    DivShift(v - lo, 0, width);
  }
}

=== FILE: setup.dfy ===
/** Starting a battle: the level-scaled enemy, the item regrowth between
    battles, and the full restart to a fresh game. */
module Setup {
  import opened Rolls
  import opened Records

  /** The template an enemy at `level` is drawn from: one species per two
      levels, capped at the strongest. */
  function SpeciesFor(level: int): (s: nat)
    requires level >= 0
    ensures s < |Templates|
    ensures 2 * s <= level
    ensures s == |Templates| - 1 || level < 2 * s + 2
  {
    var band := level / 2;
    if band < |Templates| - 1 then band else |Templates| - 1
  }

  /** The source's formula: `Math.floor(stat * (1 + (level - 1) * 0.2))` over the reals. */
  ghost function Scaled(stat: nat, level: int): int {
    (stat as real * (1.0 + (level - 1) as real * 0.2)).Floor
  }

  /** A template statistic scaled by the level multiplier, on integers. */
  function Scale(stat: nat, level: int): (r: int)
    ensures r == Scaled(stat, level)
    ensures level >= 1 ==> stat <= r
    ensures level >= 0 ==> r >= 0
  {
    assert 1.0 + (level - 1) as real * 0.2 == (level + 4) as real / 5.0;
    assert stat as real * ((level + 4) as real / 5.0) == (stat * (level + 4)) as real / 5 as real;
    FloorOfQuotient(stat * (level + 4), 5);
    stat * (level + 4) / 5
  }

  /** The enemy's statistics are its template's, each scaled to `level`. */
  ghost predicate ScaledFrom(e: Enemy, t: Template, level: int) {
    && e.maxHp == Scaled(t.hp, level)
    && e.attack == Scaled(t.attack, level)
    && e.defense == Scaled(t.defense, level)
    && e.exp == Scaled(t.exp, level)
    && e.gold == Scaled(t.gold, level)
  }

  /** Every species has at least 60 HP. */
  lemma TemplateHp(s: nat)
    requires s < |Templates|
    ensures Templates[s].hp >= 60
  {
  }

  /** An enemy of species `s` with template `t` at `level`, at full HP. */
  function ScaledEnemy(s: nat, t: Template, level: int): (e: Enemy)
    requires t.hp >= 60 && level >= 0
    ensures e.species == s
    ensures ScaledFrom(e, t, level)
    ensures e.hp == e.maxHp > 0
  {
    var hp := Scale(t.hp, level);
    ScaleAtLeast(t.hp, 60, level);
    Enemy(s, hp, hp, Scale(t.attack, level), Scale(t.defense, level), Scale(t.exp, level), Scale(t.gold, level))
  }

  /** `spawnNewEnemy`: a fresh, unhurt enemy for the current level; the
      battle starts on the player's turn with no guard and no combo.
      `maxCombo` is not reset. */
  function SpawnNewEnemy(g: Game): (r: Game)
    requires g.state.level >= 0
    ensures r.enemy.species < |Templates|
    ensures 2 * r.enemy.species <= g.state.level
    ensures r.enemy.species == |Templates| - 1 || g.state.level < 2 * r.enemy.species + 2
    ensures ScaledFrom(r.enemy, Templates[r.enemy.species], g.state.level)
    ensures r.enemy.hp == r.enemy.maxHp > 0
    ensures r.isBattleActive && r.isPlayerTurn
    ensures !r.player.isGuarding && r.player.combo == 0
    ensures r.player.(isGuarding := g.player.isGuarding, combo := g.player.combo) == g.player
    ensures r.state == g.state && r.items == g.items
  {
    var s := SpeciesFor(g.state.level);
    TemplateHp(s);
    g.(enemy := ScaledEnemy(s, Templates[s], g.state.level),
       isBattleActive := true, isPlayerTurn := true,
       player := g.player.(isGuarding := false, combo := 0))
  }

  /** A higher level never meets a weaker enemy: species and every statistic
      are monotone in the level. */
  lemma {:induction false} SpawnMonotone(g: Game, h: Game)
    requires 0 <= g.state.level <= h.state.level
    ensures var e, f := SpawnNewEnemy(g).enemy, SpawnNewEnemy(h).enemy;
      && e.species <= f.species
      && e.maxHp <= f.maxHp && e.attack <= f.attack && e.defense <= f.defense
      && e.exp <= f.exp && e.gold <= f.gold
  {
    var a, b := g.state.level, h.state.level;
    var s, u := SpeciesFor(a), SpeciesFor(b);
    assert s <= u;
    var t, v := Templates[s], Templates[u];
    assert t.hp <= v.hp && t.attack <= v.attack && t.defense <= v.defense && t.exp <= v.exp && t.gold <= v.gold;
    ScaleMonotone(t.hp, v.hp, a, b);
    ScaleMonotone(t.attack, v.attack, a, b);
    ScaleMonotone(t.defense, v.defense, a, b);
    ScaleMonotone(t.exp, v.exp, a, b);
    ScaleMonotone(t.gold, v.gold, a, b);
  }

  lemma ScaleMonotone(x: nat, y: nat, a: int, b: int)
    requires x <= y && 0 <= a <= b
    ensures Scale(x, a) <= Scale(y, b)
  {
    assert x * (a + 4) <= y * (a + 4) <= y * (b + 4);
    DivMonotone(x * (a + 4), y * (b + 4), 5);
  }

  /** A statistic of at least `lo` scales to at least `lo * 4 / 5`. */
  lemma ScaleAtLeast(stat: nat, lo: nat, level: int)
    requires lo <= stat && level >= 0
    ensures Scale(stat, level) >= lo * 4 / 5
  {
    assert lo * 4 <= stat * 4 <= stat * (level + 4);
    DivMonotone(lo * 4, stat * (level + 4), 5);
  }

  lemma DivMonotone(n: int, n': int, m: int)
    requires n <= n' && m > 0
    ensures n / m <= n' / m
  {
    FloorOfQuotient(n, m);
    FloorOfQuotient(n', m);
    assert n as real / m as real <= n' as real / m as real;
  }

  /** The regrowth of one item between battles: with `Math.random() < 0.3`
      it gains one, never past the cap of 5. */
  function Regrow(count: int, roll: Draw): (r: int)
    requires roll.Valid()
    ensures roll.Value() < 0.3 ==> r == Min(count + 1, ItemCap)
    ensures roll.Value() >= 0.3 ==> r == count
    ensures r <= count + 1
    ensures r > count ==> r <= ItemCap
  {
    if Below(roll, 3, 10) then Min(count + 1, ItemCap) else count
  }

  /** `nextBattle`: a new enemy, then each item (potion, mana potion, bomb in
      that order) may regrow by one. */
  function NextBattle(g: Game, potion: Draw, mana: Draw, bomb: Draw): (r: Game)
    requires g.state.level >= 0
    requires potion.Valid() && mana.Valid() && bomb.Valid()
    ensures r.enemy == SpawnNewEnemy(g).enemy
    ensures r.isBattleActive && r.isPlayerTurn
    ensures r.state == g.state && r.player == SpawnNewEnemy(g).player
    ensures potion.Value() < 0.3 ==> r.items.potion == Min(g.items.potion + 1, ItemCap)
    ensures potion.Value() >= 0.3 ==> r.items.potion == g.items.potion
    ensures mana.Value() < 0.3 ==> r.items.mana == Min(g.items.mana + 1, ItemCap)
    ensures mana.Value() >= 0.3 ==> r.items.mana == g.items.mana
    ensures bomb.Value() < 0.3 ==> r.items.bomb == Min(g.items.bomb + 1, ItemCap)
    ensures bomb.Value() >= 0.3 ==> r.items.bomb == g.items.bomb
    ensures forall k :: Count(g.items, k) <= Count(r.items, k) <= Count(g.items, k) + 1
                     || Count(r.items, k) == ItemCap < Count(g.items, k)
    ensures forall k :: Count(r.items, k) > Count(g.items, k) ==> Count(r.items, k) <= ItemCap
  {
    var s := SpawnNewEnemy(g);
    var i := g.items;
    s.(items := Items(Regrow(i.potion, potion), Regrow(i.mana, mana), Regrow(i.bomb, bomb)))
  }

  /** The game the constructor builds: starting counters, hero and items,
      and a first enemy for level 1. */
  function NewGame(): (r: Game)
    ensures r.state == StartState && r.player == StartPlayer && r.items == StartItems
    ensures r.enemy == Enemy(0, 60, 60, 15, 5, 25, 50)
    ensures r.isBattleActive && r.isPlayerTurn
  {
    SpawnNewEnemy(Game(StartState, StartPlayer, Enemy(0, 0, 0, 0, 0, 0, 0), StartItems, true, false))
  }

  /** `restart`: reinstate the starting counters, hero and items, then spawn. */
  function Restart(g: Game): (r: Game)
    ensures r.state == StartState && r.player == StartPlayer && r.items == StartItems
  {
    SpawnNewEnemy(g.(state := StartState, player := StartPlayer, items := StartItems))
  }

  /** Nothing of the old game survives a restart: it is the freshly constructed game. */
  lemma RestartIsNewGame(g: Game)
    ensures Restart(g) == NewGame()
  {
  }
}
